=== FILE: README.md ===
# Task store, views, list and form — a Dafny model

This project models the logic of a small task-manager web app:

- the in-memory **task store** (`taskService`): create, look up, update, delete, toggle `completed`, archive and restore;
- the store's four **views**: active, archived, today and upcoming;
- the in-memory **category store** (`categoryService`), which uses the same id and splice rules;
- the **task list** component: which view a filter name loads, the case-insensitive search box, and how each action handler rewrites the list on screen;
- the **task form**: its defaults, per-field error clearing, validation and the normalised record it submits.

Everything is a pure function over immutable sequences of records:

- An id-addressed mutation (update, delete, toggle, archive, restore) returns `Success(Applied(store', record))` or `Failure(NotFound(message))`.
- `GetById` returns the record or the same failure. `Create` cannot fail and returns `Applied` directly. The views return plain sequences. `TaskService.Apply` wraps every mutation in a `Result`.
- `StoreAfter` gives the store a caller sees afterwards; a failed operation leaves it as it was.
- Timestamps are integer milliseconds since the epoch, in UTC.
- The current instant `now` is a parameter.
- `UtcDay(t) = t / 86400000` is the day the ISO date prefix `yyyy-mm-dd` names.

Modules, one per source unit:

| file | module | models |
|---|---|---|
| `wrappers.dfy` | `Wrappers` | `Option`, `Result` |
| `records.dfy` | `Records` | generic sequence tools: first index by key (`findIndex`), `Math.max(...ids, 0) + 1`, splice, `filter`, order-preserving subsequence |
| `text.dfy` | `Text` | `toLowerCase` (ASCII), `includes`, `trim` (the ECMAScript white-space set) |
| `task_service.dfy` | `TaskService` | `src/services/api/taskService.js` |
| `category_service.dfy` | `CategoryService` | `src/services/api/categoryService.js` |
| `task_form.dfy` | `TaskForm` | `src/components/organisms/TaskForm.jsx` |
| `task_list.dfy` | `TaskList` | `src/components/organisms/TaskList.jsx` |

## Model

| member | source | states |
|---|---|---|
| TaskService.GetById | src/services/api/taskService.js:13-20 | Fails with "Task not found" exactly when no record has the id. Otherwise returns the first record with that id. |
| TaskService.Create | src/services/api/taskService.js:22-38 | The new record is appended at the end and nothing else changes. Its Id is greater than every existing Id, is 1 on an empty store, and is otherwise one above an Id in use. Title, category, priority and due date are copied from the input. A missing description becomes "". The record starts neither completed nor archived, and createdAt is `now`. Unique Ids stay unique. |
| TaskService.Update | src/services/api/taskService.js:40-48 | Fails with "Task not found" exactly when the id is absent. Otherwise the first record with the id is replaced in place by the shallow merge of the patch over it, and every other position is unchanged. The record keeps its Id when the patch has none. Ids stay unique when the patch carries no Id or the same Id. |
| TaskService.Delete | src/services/api/taskService.js:50-58 | Fails with "Task not found" exactly when the id is absent. Otherwise the first record with the id is spliced out and returned. The store shrinks by one, is the old store minus that record as a multiset, and keeps the others in order. On a store with unique Ids, the id is gone afterwards. |
| TaskService.ToggleComplete | src/services/api/taskService.js:95-103 | Fails with "Task not found" exactly when the id is absent. Otherwise only `completed` of the first record with the id is flipped, in place. Unique Ids stay unique. |
| TaskService.ArchiveTask | src/services/api/taskService.js:105-113 | Fails with "Task not found" exactly when the id is absent. Otherwise only `archived` of that record is set, in place. |
| TaskService.RestoreTask | src/services/api/taskService.js:115-123 | Fails with "Task not found" exactly when the id is absent. Otherwise only `archived` of that record is cleared, in place. |
| TaskService.ActiveTasks | src/services/api/taskService.js:85-88 | Holds exactly the non-archived records, in store order, with every copy kept. |
| TaskService.ArchivedTasks | src/services/api/taskService.js:90-93 | Holds exactly the archived records, in store order, with every copy kept. |
| TaskService.TodayTasks | src/services/api/taskService.js:60-70 | Holds exactly the non-archived records due on the current UTC day or due at or before `now`, in store order, with every copy of such a record kept. |
| TaskService.UpcomingTasks | src/services/api/taskService.js:72-83 | Holds exactly the non-archived records due after `now` and at most seven days after it, in store order, with every copy of such a record kept. |
| TaskService.ActiveArchivedPartition | src/services/api/taskService.js:85-93 | Active and Archived together are the store as a multiset, and their lengths add up to the store's. |
| TaskService.OverdueIsTodayNotUpcoming | src/services/api/taskService.js:65-68 | A non-archived task due at or before `now` is in Today and not in Upcoming. |
| TaskService.ArchivedInNoActiveView | src/services/api/taskService.js:65-87 | An archived task is in none of Active, Today or Upcoming. |
| TaskService.DueLaterTodayInBoth | src/services/api/taskService.js:65-82 | A task due later on the current UTC day is in both Today and Upcoming, so the two views are not disjoint. |
| TaskService.ViewsExample | src/services/api/taskService.js:60-93 | On five tasks, Today, Upcoming, Archive and Active hold exactly the expected ones. The tasks are: due yesterday, due now, due in 3 days, due in 10 days, and archived. The active view has four of them, including the one due in 10 days. |
| TaskService.CreateExtendsActiveView | src/services/api/taskService.js:32-36 | A created task shows up at the end of the active view, and the archived view is unchanged. |
| TaskService.ToggleTwiceRestores | src/services/api/taskService.js:95-103 | Toggling the same id twice gives back the original store, whether or not the id exists. |
| TaskService.ArchiveIdempotent | src/services/api/taskService.js:105-113 | Archiving twice leaves the store as archiving once. |
| TaskService.ArchiveThenRestore | src/services/api/taskService.js:105-123 | Archiving then restoring an existing id leaves the record un-archived with every other field unchanged. It is a no-op on a record that was not archived. |
| TaskService.UpdateEmptyPatchNoOp | src/services/api/taskService.js:46 | Updating with an empty patch leaves the store unchanged. |
| TaskService.UpdateIdempotent | src/services/api/taskService.js:40-48 | Applying the same patch twice equals applying it once, when the patch keeps the Id or the store has unique Ids. In the second case a patch that changes the Id makes the second call fail without changing anything. |
| TaskService.UpdateCanDuplicateIds | src/services/api/taskService.js:46 | A patch carrying another record's Id succeeds and leaves two records with the same Id. |
| TaskService.DeletedMaxIdIsReused | src/services/api/taskService.js:24-26 | In a store with unique Ids, delete the record with the largest Id, wherever it sits. The next created Id is then no larger than the deleted one, and it is the same Id when another record's Id was one below it. |
| TaskService.Apply | src/services/api/taskService.js:22-123 | One store mutation of any kind. It fails exactly when an id-addressed operation names an absent id. Every operation except an Id-changing update keeps Ids unique. |
| CategoryService.GetAll | src/services/api/categoryService.js:8-11 | Returns every category, in store order. |
| CategoryService.GetById | src/services/api/categoryService.js:13-20 | Fails with "Category not found" exactly when the id is absent. Otherwise returns the first category with the id. |
| CategoryService.Create | src/services/api/categoryService.js:22-32 | Appends one category, with name and color from the input. Its Id is greater than every existing Id and 1 on an empty store. The existing categories are unchanged, and unique Ids stay unique. |
| CategoryService.Update | src/services/api/categoryService.js:34-42 | Fails with "Category not found" exactly when the id is absent. Otherwise the category is replaced in place by the shallow merge, with the other positions unchanged. Ids stay unique when the patch keeps the Id. |
| CategoryService.Delete | src/services/api/categoryService.js:44-52 | Fails with "Category not found" exactly when the id is absent. Otherwise splices out and returns the first category with the id, keeping the others in order. |
| CategoryService.UpdateEmptyPatchNoOp | src/services/api/categoryService.js:40 | An empty patch leaves the store unchanged. |
| CategoryService.CreateThenDelete | src/services/api/categoryService.js:22-52 | Deleting the category just created gives back the original store and returns that category. |
| TaskList.LoadTasks | src/components/organisms/TaskList.jsx:29-47 | "today", "upcoming" and "archive" load their views, and every other filter name loads the active view. The list is an order-preserving subsequence of the store, archived exactly under "archive". |
| TaskList.LoadIsSynced | src/components/organisms/TaskList.jsx:29-49 | A loaded list only shows store records, without repeating an Id. |
| TaskList.Search | src/components/organisms/TaskList.jsx:156-165 | An empty query keeps the list as is. Otherwise the result keeps exactly the entries whose lower-cased title, description or category contains the lower-cased query, in list order, with every copy of such an entry kept. |
| TaskList.SearchKeepsExactlyOccurrences | src/components/organisms/TaskList.jsx:157-165 | For a non-empty query, an entry is kept exactly when the lower-cased query occurs at some position of one of the three lower-cased fields. |
| TaskList.SearchIgnoresCase | src/components/organisms/TaskList.jsx:159-163 | Queries that differ only in ASCII letter case give the same result. |
| TaskList.SearchIdempotent | src/components/organisms/TaskList.jsx:157-165 | Searching a search result again with the same query changes nothing. |
| TaskList.ReplaceById | src/components/organisms/TaskList.jsx:61-63 | The list rewrite on toggle, also used on update at lines 129-131. The list keeps its length and order, and exactly the entries with the id are replaced. Every entry is an old entry or the new record. When the new record keeps the id, every position keeps its Id, and a list without repeated Ids stays without them. |
| TaskList.RemoveById | src/components/organisms/TaskList.jsx:93 | Keeps exactly the entries whose Id differs, in order, with every copy of such an entry kept. |
| TaskList.HandleToggleComplete | src/components/organisms/TaskList.jsx:58-74 | An absent id leaves the screen as it was. Otherwise the store is toggled and the list keeps its length with other entries unchanged. Every list entry with the id is replaced by the toggled store record. On a synced screen, each such entry is therefore shown with `completed` flipped, and the screen stays synced. |
| TaskList.HandleDelete | src/components/organisms/TaskList.jsx:86-99 | A refused confirmation or an absent id changes nothing. Otherwise the record leaves the store and every entry with the id leaves the list. The screen stays synced. |
| TaskList.HandleArchive | src/components/organisms/TaskList.jsx:101-110 | An absent id changes nothing. Otherwise the store archives the record, the list drops every entry with the id and gains none, and the screen stays synced. |
| TaskList.HandleRestore | src/components/organisms/TaskList.jsx:112-121 | An absent id changes nothing. Otherwise the store restores the record, the list drops every entry with the id and gains none, and the screen stays synced. |
| TaskList.HandleFormSubmit | src/components/organisms/TaskList.jsx:123-137 | With a task selected, the store updates it with the five form fields, keeping its Id, and the list replaces its entries. Otherwise the new task is appended to the store but put at the front of the list. The screen stays synced either way. |
| TaskList.ToggleTwiceRestoresScreen | src/components/organisms/TaskList.jsx:58-63 | On a synced screen, toggling the same id twice brings back store and list exactly. |
| TaskList.FormCreatesOnlyValidTasks | src/components/organisms/TaskList.jsx:133-135 | A task created through the form has a non-blank, trimmed title and is both the store's last record and the list's first entry. |
| TaskForm.NewTaskForm | src/components/organisms/TaskForm.jsx:20-26 | A new form has empty title and description, category "Personal", priority "Medium", and no errors. |
| TaskForm.EditTaskForm | src/components/organisms/TaskForm.jsx:36-44 | An edit form copies the task. A missing category or priority falls back to "Personal" or "Medium". |
| TaskForm.EditDefaultsMatchNew | src/components/organisms/TaskForm.jsx:20-44 | An edited task without category and priority opens with the same category and priority as a new form. |
| TaskForm.HandleInputChange | src/components/organisms/TaskForm.jsx:68-81 | Only the edited field's value changes. Only that field's error is cleared, and every other error is unchanged. |
| TaskForm.ValidateForm | src/components/organisms/TaskForm.jsx:83-96 | There is a title error ("Task title is required") exactly when the title is all white space. There is a due-date error ("Due date is required") exactly when the due date is empty. There are no other errors. |
| TaskForm.ValidIff | src/components/organisms/TaskForm.jsx:83-96 | The form is valid exactly when the trimmed title and the due date are both non-empty. |
| TaskForm.HandleSubmit | src/components/organisms/TaskForm.jsx:98-113 | Errors become what validation found, and submission happens exactly when validation passes. The submitted title and description are the trimmed inputs, and the title is non-empty. Category and priority pass through, and the due date is converted. |
| TaskForm.BlankTitleBlocksSubmit | src/components/organisms/TaskForm.jsx:86-103 | A title made only of white space is never submitted and yields the title error. |
| TaskForm.SubmitNormalisationIdempotent | src/components/organisms/TaskForm.jsx:98-110 | For a form that passes validation, submitting the submitted record again passes too and yields the same title and description. |
| Records.IndexOf | src/services/api/taskService.js:42-45 | `findIndex`: returns none exactly when no record has the key, and otherwise the first position with it. |
| Records.NextKey | src/services/api/taskService.js:24-26 | `Math.max(...ids, 0) + 1` is at least 1 and above every key. It is 1, or one above a key in use. |
| Records.RemoveAt | src/services/api/taskService.js:56 | `splice(k, 1)`: one shorter, the records before k in place, the ones after shifted down by one, and the removed record is the only one missing from the multiset. |
| Records.FilterMembers | src/services/api/taskService.js:87 | `filter` keeps exactly the records that pass the predicate. |
| Records.FilterIsSubsequence | src/services/api/taskService.js:87 | `filter` keeps records in their original order. |
| Records.FilterCount | src/services/api/taskService.js:87 | `filter` keeps every copy of a passing record and no copy of a failing one. |
| Records.FilterComplement | src/services/api/taskService.js:87-92 | Filtering by a predicate and by its negation splits the input as a multiset. |
| Text.ContainsIff | src/components/organisms/TaskList.jsx:161-163 | `includes` holds exactly when the needle occurs at some position of the text. |
| Text.Trim | src/components/organisms/TaskForm.jsx:86 | `trim` returns a piece of the input surrounded only by white space, with no white space at either end. It is empty exactly when the input is all white space. |
| Text.TrimIdempotent | src/components/organisms/TaskForm.jsx:107-108 | Trimming twice equals trimming once. |
| Text.Lower | src/components/organisms/TaskList.jsx:159-163 | `toLowerCase` keeps the length and lower-cases every ASCII capital at its position. |
| Text.EqualIgnoringCaseLower | src/components/organisms/TaskList.jsx:159 | Strings differing only in ASCII case lower-case to the same string. |

## Left out

- The artificial `delay`, `async` and `Promise` plumbing. Every operation is a plain function.
- Loading the initial store from the mock JSON files. The initial store is any sequence, and Id uniqueness is a hypothesis where it matters.
- `parseInt(id)`. Ids are integers already.
- Records.NextKey: Ids and timestamps are JavaScript numbers (doubles), taken here as unbounded integers. At 2^53 and above, `maxId + 1` rounds back to `maxId`, so the program's new key need not be above every key in use. Such an Id can only come from seed data or from an update whose patch carries an Id (`TaskService.UpdateCanDuplicateIds`).
- TaskService.Create: for the same reason, "above every Id in use" and "unique Ids stay unique" hold for the model's integers but not for the program once an Id reaches 2^53; there `create` can repeat an existing Id.
- CategoryService.Create: the same 2^53 limit applies to its new Id.
- Copy-on-read (`{ ...task }`, `[...tasks]`). Immutable values make it meaningless.
- `taskService.getAll`. It is the same snapshot as `CategoryService.GetAll`, and the list never calls it.
- Parsing and formatting dates: `new Date(...)`, `toISOString`, date-fns `format`, and setting 17:00 local time for a new form's default due date. These are parameters instead: the formatted default due date, `formatLocal` for the edit form, and `toTimestamp` for the submitted due date. A task's due date is always a timestamp, so the "no due date" branch of the edit form does not arise. Invalid date strings are not modelled.
- TaskService.UpcomingTasks: the window ends at `now + 7 * 86400000`. The source adds seven calendar days in local time with `setDate`, which differs from this by an hour across a daylight-saving change.
- TaskService.Create: `createdAt` is the integer `now`, not its ISO string.
- Text.Lower: lower-cases ASCII capitals only, not the full Unicode mapping of `toLowerCase`.
- The subtask toggle handler. It only shows a message and has no behaviour.
- Toasts, `console.error`, loading and error flags, the modal's open/close state, and every presentational component.
- The delete confirmation dialog. Its answer is the `confirmed` parameter.
- What can trigger `HandleArchive`. The task card receives an archive callback but never calls it; it only calls the toggle, edit, delete and restore callbacks. So the archive handler is modelled as the list component writes it, but no screen action reaches it.
- What can reach the create branch of `HandleFormSubmit`. The list renders its task modal only when it has entries to show. The edit action always selects a task before opening it. The empty state's action opens the modal with no task selected, but in that state the modal is not rendered. So the create branch, and the prepend described above, runs only if the list gains entries while that open flag is still set. It is modelled as the list component writes it.
- A form error reset to `null` is modelled as an absent entry. Both read as no error.
- The pages, sidebar, task card, statistics and subtask list. They only display what the store returns, including the floating-point completion percentages.
- The header's new-task button. It creates through the same `create`, then bumps the page's update counter, and the list reloads its view instead of prepending the task. That path is not modelled.
- The `subtasks` field of a task record. The task card only displays it, and `update` would carry it over unchanged, so `Task` has no such field.

The "All" view returns every non-archived task (`getActiveTasks` filters on `!archived` only). A task due in ten days is therefore listed there, although it is in neither Today nor Upcoming (`TaskService.ViewsExample`).

=== FILE: category_service.dfy ===
/** The in-memory category store: the same `Id` assignment, lookup, merge
    and splice rules as the task store, over `{ Id, name, color }` records.
    Tasks refer to categories by name, and nothing here checks that link. */
module CategoryService {
  import opened Wrappers
  import Records

  datatype Category = Category(Id: int, name: string, color: string)

  function CategoryId(c: Category): int { c.Id }

  datatype CategoryInput = CategoryInput(name: string, color: string)

  /** The fields a caller supplies to `update`, each present or absent;
      like the task patch it may carry an `Id`. */
  datatype CategoryPatch = CategoryPatch(Id: Option<int>, name: Option<string>, color: Option<string>)

  const EmptyPatch: CategoryPatch := CategoryPatch(None, None, None)

  datatype Error = NotFound(message: string)

  const CategoryNotFound: Error := NotFound("Category not found")

  datatype Applied = Applied(store: seq<Category>, category: Category)

  /** The store as an operation leaves it: a failed operation throws before
      touching the store. */
  function StoreAfter(s: seq<Category>, r: Result<Applied, Error>): seq<Category> {
    if r.Success? then r.value.store else s
  }

  predicate HasId(s: seq<Category>, id: int) {
    Records.HasKey(s, CategoryId, id)
  }

  predicate Located(s: seq<Category>, id: int, k: int) {
    Records.FirstAt(s, CategoryId, id, k)
  }

  ghost predicate UniqueIds(s: seq<Category>) {
    Records.UniqueKeys(s, CategoryId)
  }

  /** A snapshot of every category, in store order. */
  function GetAll(s: seq<Category>): (r: seq<Category>)
    ensures |r| == |s|
    ensures forall i :: 0 <= i < |s| ==> r[i] == s[i]
  {
    s[..]
  }

  /** The category with `id`, or `CategoryNotFound`. */
  function GetById(s: seq<Category>, id: int): (r: Result<Category, Error>)
    ensures r.Failure? <==> !HasId(s, id)
    ensures r.Failure? ==> r.error == CategoryNotFound
    ensures r.Success? ==> exists k :: Located(s, id, k) && r.value == s[k]
  {
    match Records.IndexOf(s, CategoryId, id)
    case None => Failure(CategoryNotFound)
    case Some(k) => Success(s[k])
  }

  /** Appends a category whose `Id` is one above the largest `Id` in use
      (1 when there is none); existing records are untouched. */
  function Create(s: seq<Category>, input: CategoryInput): (r: Applied)
    ensures r.store == s + [r.category]
    ensures forall i :: 0 <= i < |s| ==> s[i].Id < r.category.Id
    ensures r.category.Id >= 1
    ensures r.category.Id == 1 || HasId(s, r.category.Id - 1)
    ensures r.category.name == input.name && r.category.color == input.color
    ensures UniqueIds(s) ==> UniqueIds(r.store)
  {
    var c := Category(Records.NextKey(s, CategoryId), input.name, input.color);
    Applied(s + [c], c)
  }

  /** `{ ...c, ...p }`. */
  function Merge(c: Category, p: CategoryPatch): (r: Category)
    ensures r.Id == p.Id.GetOr(c.Id)
    ensures r.name == p.name.GetOr(c.name)
    ensures r.color == p.color.GetOr(c.color)
  {
    Category(p.Id.GetOr(c.Id), p.name.GetOr(c.name), p.color.GetOr(c.color))
  }

  /** Shallow-merges `patch` into the category with `id`, in place. */
  function Update(s: seq<Category>, id: int, patch: CategoryPatch): (r: Result<Applied, Error>)
    ensures r.Failure? <==> !HasId(s, id)
    ensures r.Failure? ==> r.error == CategoryNotFound
    ensures r.Success? ==> (exists k :: Located(s, id, k)
                              && r.value.category == Merge(s[k], patch)
                              && r.value.store == s[k := r.value.category])
    ensures r.Success? && (patch.Id.None? || patch.Id == Some(id)) && UniqueIds(s)
      ==> UniqueIds(r.value.store)
  {
    match Records.IndexOf(s, CategoryId, id)
    case None => Failure(CategoryNotFound)
    case Some(k) =>
      var c := Merge(s[k], patch);
      Records.ReplaceKeepsUnique(s, k, c, CategoryId);
      Success(Applied(s[k := c], c))
  }

  /** Splices the category with `id` out of the store and returns it. */
  function Delete(s: seq<Category>, id: int): (r: Result<Applied, Error>)
    ensures r.Failure? <==> !HasId(s, id)
    ensures r.Failure? ==> r.error == CategoryNotFound
    ensures r.Success? ==> (exists k :: Located(s, id, k)
                              && r.value.category == s[k]
                              && r.value.store == s[..k] + s[k + 1..])
    ensures r.Success? ==> |r.value.store| == |s| - 1
    ensures r.Success? ==> multiset(r.value.store) + multiset{r.value.category} == multiset(s)
    ensures r.Success? ==> Records.IsSubsequence(r.value.store, s)
    ensures r.Success? && UniqueIds(s) ==> UniqueIds(r.value.store) && !HasId(r.value.store, id)
  {
    match Records.IndexOf(s, CategoryId, id)
    case None => Failure(CategoryNotFound)
    case Some(k) =>
      var rest := Records.RemoveAt(s, k);
      Records.RemoveAtIsSubsequence(s, k);
      Records.RemoveKeepsUnique(s, k, CategoryId);
      Success(Applied(rest, s[k]))
  }

  /** An empty patch leaves the store as it was. */
  lemma UpdateEmptyPatchNoOp(s: seq<Category>, id: int)
    ensures StoreAfter(s, Update(s, id, EmptyPatch)) == s
  {
    var r := Update(s, id, EmptyPatch);
    if r.Success? {
      var k :| Located(s, id, k) && r.value.category == Merge(s[k], EmptyPatch)
        && r.value.store == s[k := r.value.category];
      assert Merge(s[k], EmptyPatch) == s[k];
    }
  }

  /** Creating then deleting the new category gives back the original store. */
  lemma CreateThenDelete(s: seq<Category>, input: CategoryInput)
    ensures var c := Create(s, input);
      Delete(c.store, c.category.Id).Success?
      && Delete(c.store, c.category.Id).value.store == s
      && Delete(c.store, c.category.Id).value.category == c.category
  {
    var c := Create(s, input);
    var id := c.category.Id;
    var t := c.store;
    assert t[|s|].Id == id;
    var r := Delete(t, id);
    var k :| Located(t, id, k) && r.value.category == t[k] && r.value.store == t[..k] + t[k + 1..];
    assert k == |s|;
    assert t[..|s|] == s;
  }
}

=== FILE: records.dfy ===
/** Helpers over an ordered collection of records, each carrying an integer
    key (the `Id` field of tasks and categories). Both stores of the
    application use the same rules: look a record up by the first matching
    key, assign a new key one above the largest, and filter while keeping
    order. The key is passed as a function so one definition serves both
    record types. */
module Records {
  import opened Wrappers

  /** Some record of `s` has key `id`. */
  predicate HasKey<T>(s: seq<T>, key: T -> int, id: int) {
    exists i :: 0 <= i < |s| && key(s[i]) == id
  }

  /** `k` is the position of the first record of `s` whose key is `id`,
      which is the position `findIndex` and `find` select. */
  predicate FirstAt<T>(s: seq<T>, key: T -> int, id: int, k: int) {
    && 0 <= k < |s|
    && key(s[k]) == id
    && forall j :: 0 <= j < k ==> key(s[j]) != id
  }

  /** Only one position can be the first with a given key. */
  lemma FirstAtUnique<T>(s: seq<T>, key: T -> int, id: int, k: int, k': int)
    requires FirstAt(s, key, id, k) && FirstAt(s, key, id, k')
    ensures k == k'
  {
  }

  /** The position of the first record whose key is `id`, or `None` when no
      record has that key. */
  function IndexOf<T>(s: seq<T>, key: T -> int, id: int): (r: Option<nat>)
    ensures r.None? <==> !HasKey(s, key, id)
    ensures r.Some? ==> FirstAt(s, key, id, r.value)
    decreases |s|
  {
    if |s| == 0 then None
    else if key(s[0]) == id then Some(0)
    else
      match IndexOf(s[1..], key, id)
      case None =>
        assert forall i :: 1 <= i < |s| ==> key(s[i]) == key(s[1..][i - 1]);
        None
      case Some(k) =>
        assert s[k + 1] == s[1..][k];
        Some(k + 1)
  }

  /** The largest key of `s`, or 0 when every key is smaller than 0 or `s`
      is empty: the value of `Math.max(...keys, 0)`. */
  function MaxKey<T>(s: seq<T>, key: T -> int): (m: int)
    ensures m >= 0
    ensures forall i :: 0 <= i < |s| ==> key(s[i]) <= m
    ensures m == 0 || exists i :: 0 <= i < |s| && key(s[i]) == m
    decreases |s|
  {
    if |s| == 0 then 0
    else
      var rest := MaxKey(s[1..], key);
      assert forall i :: 1 <= i < |s| ==> key(s[i]) == key(s[1..][i - 1]);
      if key(s[0]) >= rest then key(s[0])
      else if rest == 0 then 0
      else
        assert exists i :: 0 <= i < |s[1..]| && key(s[1..][i]) == rest;
        var i :| 0 <= i < |s[1..]| && key(s[1..][i]) == rest;
        assert key(s[i + 1]) == rest;
        rest
  }

  /** The key a newly created record receives: one above `MaxKey`. It is at
      least 1, above every key in use, and either 1 or one above a key that
      is in use. */
  function NextKey<T>(s: seq<T>, key: T -> int): (n: int)
    ensures n >= 1
    ensures forall i :: 0 <= i < |s| ==> key(s[i]) < n
    ensures n == 1 || HasKey(s, key, n - 1)
  {
    MaxKey(s, key) + 1
  }

  /** No two records of `s` share a key. */
  ghost predicate UniqueKeys<T>(s: seq<T>, key: T -> int) {
    forall i, j :: 0 <= i < j < |s| ==> key(s[i]) != key(s[j])
  }

  /** With unique keys, the record with key `id` is the first one. */
  lemma UniqueFirstAt<T>(s: seq<T>, key: T -> int, id: int, k: int)
    requires UniqueKeys(s, key)
    requires 0 <= k < |s| && key(s[k]) == id
    ensures FirstAt(s, key, id, k)
  {
    forall j | 0 <= j < k
      ensures key(s[j]) != id
    {
      assert key(s[j]) != key(s[k]);
    }
  }

  /** `s` with position `k` spliced out (`splice(k, 1)`). */
  function RemoveAt<T>(s: seq<T>, k: nat): (r: seq<T>)
    requires k < |s|
    ensures |r| == |s| - 1
    ensures forall j :: 0 <= j < k ==> r[j] == s[j]
    ensures forall j :: k <= j < |r| ==> r[j] == s[j + 1]
    ensures multiset(r) + multiset{s[k]} == multiset(s)
  {
    assert s == s[..k] + [s[k]] + s[k + 1..];
    s[..k] + s[k + 1..]
  }

  /** `r` is obtained from `s` by dropping some records, keeping the order of
      the rest. */
  ghost predicate IsSubsequence<T>(r: seq<T>, s: seq<T>)
    decreases |s|
  {
    if |r| == 0 then true
    else if |s| == 0 then false
    else (r[0] == s[0] && IsSubsequence(r[1..], s[1..])) || IsSubsequence(r, s[1..])
  }

  lemma {:induction false} SubsequenceReflexive<T>(s: seq<T>)
    ensures IsSubsequence(s, s)
    decreases |s|
  {
    if |s| > 0 {
      SubsequenceReflexive(s[1..]);
    }
  }

  /** Every record of a subsequence comes from the original. */
  lemma {:induction false} SubsequenceMembers<T>(r: seq<T>, s: seq<T>)
    requires IsSubsequence(r, s)
    ensures forall x :: x in r ==> x in s
    decreases |s|
  {
    if |r| > 0 {
      if r[0] == s[0] && IsSubsequence(r[1..], s[1..]) {
        SubsequenceMembers(r[1..], s[1..]);
        forall x | x in r
          ensures x in s
        {
          if x != r[0] {
            assert x in r[1..];
          }
        }
      } else {
        SubsequenceMembers(r, s[1..]);
      }
    }
  }

  /** Dropping records never creates a key clash. */
  lemma {:induction false} SubsequenceKeepsUnique<T>(r: seq<T>, s: seq<T>, key: T -> int)
    requires IsSubsequence(r, s)
    requires UniqueKeys(s, key)
    ensures UniqueKeys(r, key)
    decreases |s|
  {
    if |r| > 0 {
      assert UniqueKeys(s[1..], key) by {
        forall i, j | 0 <= i < j < |s[1..]|
          ensures key(s[1..][i]) != key(s[1..][j])
        {
          assert s[1..][i] == s[i + 1] && s[1..][j] == s[j + 1];
        }
      }
      if r[0] == s[0] && IsSubsequence(r[1..], s[1..]) {
        SubsequenceKeepsUnique(r[1..], s[1..], key);
        SubsequenceMembers(r[1..], s[1..]);
        forall i, j | 0 <= i < j < |r|
          ensures key(r[i]) != key(r[j])
        {
          if i == 0 {
            assert r[j] == r[1..][j - 1];
            assert r[j] in s[1..];
            var m :| 0 <= m < |s[1..]| && s[1..][m] == r[j];
            assert s[m + 1] == r[j];
          } else {
            assert r[i] == r[1..][i - 1] && r[j] == r[1..][j - 1];
          }
        }
      } else {
        SubsequenceKeepsUnique(r, s[1..], key);
      }
    }
  }

  /** Splicing a record out leaves a subsequence. */
  lemma {:induction false} RemoveAtIsSubsequence<T>(s: seq<T>, k: nat)
    requires k < |s|
    ensures IsSubsequence(RemoveAt(s, k), s)
    decreases k
  {
    if k == 0 {
      assert RemoveAt(s, 0) == s[1..];
      SubsequenceReflexive(s[1..]);
    } else {
      RemoveAtIsSubsequence(s[1..], k - 1);
      assert RemoveAt(s, k)[1..] == RemoveAt(s[1..], k - 1);
    }
  }

  /** Splicing out a record keeps unique keys unique, and afterwards no
      record carries the removed record's key. */
  lemma RemoveKeepsUnique<T>(s: seq<T>, k: nat, key: T -> int)
    requires k < |s|
    ensures UniqueKeys(s, key) ==>
              UniqueKeys(RemoveAt(s, k), key) && !HasKey(RemoveAt(s, k), key, key(s[k]))
  {
    if UniqueKeys(s, key) {
      var rest := RemoveAt(s, k);
      RemoveAtIsSubsequence(s, k);
      SubsequenceKeepsUnique(rest, s, key);
      forall j | 0 <= j < |rest|
        ensures key(rest[j]) != key(s[k])
      {
        if j < k {
          assert rest[j] == s[j];
        } else {
          assert rest[j] == s[j + 1];
        }
      }
    }
  }

  /** Replacing a record by one with the same key keeps unique keys unique. */
  lemma ReplaceKeepsUnique<T>(s: seq<T>, k: nat, x: T, key: T -> int)
    requires k < |s|
    ensures key(x) == key(s[k]) && UniqueKeys(s, key) ==> UniqueKeys(s[k := x], key)
  {
    var s' := s[k := x];
    if key(x) == key(s[k]) {
      assert forall i :: 0 <= i < |s| ==> key(s'[i]) == key(s[i]);
    }
  }

  /** The records of `s` that satisfy `p`, in their original order
      (`Array.prototype.filter`). */
  function Filter<T(!new)>(s: seq<T>, p: T -> bool): (r: seq<T>)
    ensures |r| <= |s|
    ensures forall i :: 0 <= i < |r| ==> p(r[i])
    decreases |s|
  {
    if |s| == 0 then []
    else
      var rest := Filter(s[1..], p);
      if p(s[0]) then [s[0]] + rest else rest
  }

  /** `Filter` keeps exactly the records of `s` that pass `p`. */
  lemma {:induction false} FilterMembers<T(!new)>(s: seq<T>, p: T -> bool)
    ensures forall x :: x in Filter(s, p) <==> x in s && p(x)
    decreases |s|
  {
    if |s| > 0 {
      FilterMembers(s[1..], p);
      assert forall x :: x in s <==> x == s[0] || x in s[1..];
    }
  }

  /** `Filter` keeps every copy of a passing record and no copy of a
      failing one. */
  lemma {:induction false} FilterCount<T(!new)>(s: seq<T>, p: T -> bool)
    ensures forall x :: multiset(Filter(s, p))[x] == if p(x) then multiset(s)[x] else 0
    decreases |s|
  {
    if |s| > 0 {
      FilterCount(s[1..], p);
      assert s == [s[0]] + s[1..];
      assert multiset(s) == multiset{s[0]} + multiset(s[1..]);
    }
  }

  lemma {:induction false} FilterIsSubsequence<T(!new)>(s: seq<T>, p: T -> bool)
    ensures IsSubsequence(Filter(s, p), s)
    decreases |s|
  {
    if |s| > 0 {
      FilterIsSubsequence(s[1..], p);
      var rest := Filter(s[1..], p);
      if p(s[0]) {
        assert Filter(s, p)[1..] == rest;
      }
    }
  }

  /** `[x]` if `x` passes `p`, else nothing. */
  function Keep<T>(x: T, p: T -> bool): seq<T> {
    if p(x) then [x] else []
  }

  /** One step of `Filter`: the head is kept exactly when it passes. */
  lemma FilterCons<T(!new)>(x: T, r: seq<T>, p: T -> bool)
    ensures Filter([x] + r, p) == Keep(x, p) + Filter(r, p)
  {
    assert ([x] + r)[1..] == r;
  }

  /** `Filter` unrolled over a list of five records, one step per record. */
  lemma FilterFive<T(!new)>(a: T, b: T, c: T, d: T, e: T, p: T -> bool)
    ensures Filter([a, b, c, d, e], p)
      == Keep(a, p) + (Keep(b, p) + (Keep(c, p) + (Keep(d, p) + Keep(e, p))))
  {
    var s4 := [b, c, d, e];
    var s3 := [c, d, e];
    var s2 := [d, e];
    assert [a, b, c, d, e] == [a] + s4;
    FilterCons(a, s4, p);
    assert s4 == [b] + s3;
    FilterCons(b, s3, p);
    assert s3 == [c] + s2;
    FilterCons(c, s2, p);
    assert s2 == [d] + [e];
    FilterCons(d, [e], p);
    assert [e] == [e] + [];
    FilterCons(e, [], p);
  }

  /** Filtering distributes over concatenation. */
  lemma {:induction false} FilterAppend<T(!new)>(s1: seq<T>, s2: seq<T>, p: T -> bool)
    ensures Filter(s1 + s2, p) == Filter(s1, p) + Filter(s2, p)
    decreases |s1|
  {
    if |s1| > 0 {
      FilterAppend(s1[1..], s2, p);
      assert (s1 + s2)[1..] == s1[1..] + s2;
    } else {
      assert s1 + s2 == s2;
    }
  }

  /** Filters by predicates that agree on every record give the same result. */
  lemma {:induction false} FilterExtensional<T(!new)>(s: seq<T>, p: T -> bool, q: T -> bool)
    requires forall x :: x in s ==> p(x) == q(x)
    ensures Filter(s, p) == Filter(s, q)
    decreases |s|
  {
    if |s| > 0 {
      FilterExtensional(s[1..], p, q);
    }
  }

  /** A filter that every record passes keeps everything. */
  lemma {:induction false} FilterKeepsAll<T(!new)>(s: seq<T>, p: T -> bool)
    requires forall x :: x in s ==> p(x)
    ensures Filter(s, p) == s
    decreases |s|
  {
    if |s| > 0 {
      FilterKeepsAll(s[1..], p);
      assert s == [s[0]] + s[1..];
    }
  }

  /** A filter and its complement split `s`: every record lands in exactly
      one of the two results. */
  lemma {:induction false} FilterComplement<T(!new)>(s: seq<T>, p: T -> bool, q: T -> bool)
    requires forall x :: q(x) == !p(x)
    ensures multiset(Filter(s, p)) + multiset(Filter(s, q)) == multiset(s)
    ensures |Filter(s, p)| + |Filter(s, q)| == |s|
    decreases |s|
  {
    if |s| > 0 {
      FilterComplement(s[1..], p, q);
      assert s == [s[0]] + s[1..];
    }
  }
}

=== FILE: task_form.dfy ===
/** The task form: its fields, the defaults it starts from, how an edit of
    one field updates the form and its error messages, the validation that
    guards submission, and the normalised record it hands to its caller. */
module TaskForm {
  import opened Wrappers
  import Text
  import TaskService

  const DefaultCategory: string := "Personal"
  const DefaultPriority: string := "Medium"
  const TitleRequired: string := "Task title is required"
  const DueDateRequired: string := "Due date is required"

  datatype Field = Title | Description | Category | Priority | DueDate

  /** What the inputs hold, all as text; `dueDate` is the `datetime-local`
      input's value, empty when unset. */
  datatype FormData = FormData(
    title: string,
    description: string,
    category: string,
    priority: string,
    dueDate: string)
  {
    function Get(f: Field): string {
      match f
      case Title => title
      case Description => description
      case Category => category
      case Priority => priority
      case DueDate => dueDate
    }

    /** `{ ...this, [f]: v }`. */
    function Set(f: Field, v: string): (r: FormData)
      ensures r.Get(f) == v
      ensures forall g :: g != f ==> r.Get(g) == Get(g)
    {
      match f
      case Title => this.(title := v)
      case Description => this.(description := v)
      case Category => this.(category := v)
      case Priority => this.(priority := v)
      case DueDate => this.(dueDate := v)
    }
  }

  /** The form's data and its error messages. A field without an error has
      no entry; resetting an error to `null` removes the entry, since both
      read as falsy. */
  datatype FormState = FormState(data: FormData, errors: map<Field, string>)

  /** The form for a new task: empty text, the default category and priority,
      and `defaultDue` (17:00 today, formatted by the caller) as due date. */
  function NewTaskForm(defaultDue: string): (r: FormState)
    ensures r.data.title == "" && r.data.description == ""
    ensures r.data.category == DefaultCategory && r.data.priority == DefaultPriority
    ensures r.data.dueDate == defaultDue
    ensures r.errors == map[]
  {
    FormState(FormData("", "", DefaultCategory, DefaultPriority, defaultDue), map[])
  }

  /** `s || fallback` on a string: only the empty string is falsy. */
  function OrDefault(s: string, fallback: string): (r: string)
    ensures s != "" ==> r == s
    ensures s == "" ==> r == fallback
  {
    if s == "" then fallback else s
  }

  /** The form for editing `t`; a missing category or priority falls back to
      the same defaults as a new task. `formatLocal` renders the due date
      for the `datetime-local` input. */
  function EditTaskForm(t: TaskService.Task, formatLocal: int -> string): (r: FormState)
    ensures r.data.title == t.title && r.data.description == t.description
    ensures r.data.category == OrDefault(t.category, DefaultCategory)
    ensures r.data.priority == OrDefault(t.priority, DefaultPriority)
    ensures r.data.dueDate == formatLocal(t.dueDate)
    ensures r.errors == map[]
  {
    FormState(
      FormData(
        OrDefault(t.title, ""),
        OrDefault(t.description, ""),
        OrDefault(t.category, DefaultCategory),
        OrDefault(t.priority, DefaultPriority),
        formatLocal(t.dueDate)),
      map[])
  }

  /** An edited task lacking category and priority opens with exactly the
      category and priority a new task gets. */
  lemma EditDefaultsMatchNew(t: TaskService.Task, formatLocal: int -> string, defaultDue: string)
    requires t.category == "" && t.priority == ""
    ensures EditTaskForm(t, formatLocal).data.category == NewTaskForm(defaultDue).data.category
    ensures EditTaskForm(t, formatLocal).data.priority == NewTaskForm(defaultDue).data.priority
  {
  }

  /** Typing `v` into field `f`: only that field changes, and only that
      field's error is cleared (when it was set). */
  function HandleInputChange(st: FormState, f: Field, v: string): (r: FormState)
    ensures r.data.Get(f) == v
    ensures forall g :: g != f ==> r.data.Get(g) == st.data.Get(g)
    ensures f in r.errors ==> r.errors[f] == ""
    ensures forall g :: g != f ==> (g in r.errors <==> g in st.errors)
    ensures forall g :: g != f && g in r.errors ==> r.errors[g] == st.errors[g]
  {
    var errors := if f in st.errors && st.errors[f] != "" then st.errors - {f} else st.errors;
    FormState(st.data.Set(f, v), errors)
  }

  /** The errors `validateForm` records: a title that is empty once trimmed,
      and an empty due date. */
  function ValidateForm(d: FormData): (errs: map<Field, string>)
    ensures Title in errs <==> Text.AllWhitespace(d.title)
    ensures DueDate in errs <==> d.dueDate == ""
    ensures errs.Keys <= {Title, DueDate}
    ensures Title in errs ==> errs[Title] == TitleRequired
    ensures DueDate in errs ==> errs[DueDate] == DueDateRequired
  {
    var titleErrors := if Text.Trim(d.title) == "" then map[Title := TitleRequired] else map[];
    if d.dueDate == "" then titleErrors[DueDate := DueDateRequired] else titleErrors
  }

  /** The form passes validation when it records no error. */
  predicate IsValid(d: FormData) {
    |ValidateForm(d)| == 0
  }

  /** Validation passes exactly when the trimmed title and the due date are
      both non-empty. */
  lemma ValidIff(d: FormData)
    ensures IsValid(d) <==> Text.Trim(d.title) != "" && d.dueDate != ""
  {
    var errs := ValidateForm(d);
    if Text.Trim(d.title) == "" {
      assert Title in errs;
    }
    if d.dueDate == "" {
      assert DueDate in errs;
    }
    if Text.Trim(d.title) != "" && d.dueDate != "" {
      assert errs.Keys == {};
    }
  }

  /** What the form hands to `onSubmit`: the data with title and description
      trimmed and the due date converted to a UTC timestamp. */
  datatype Submission = Submission(
    title: string,
    description: string,
    category: string,
    priority: string,
    dueDate: int)

  /** The outcome of pressing submit: the form afterwards (its errors are
      whatever validation found) and the submission, absent when validation
      failed and `onSubmit` is not called. `toTimestamp` stands for
      `new Date(value).toISOString()`. */
  datatype SubmitOutcome = SubmitOutcome(state: FormState, submitted: Option<Submission>)

  function HandleSubmit(st: FormState, toTimestamp: string -> int): (r: SubmitOutcome)
    ensures r.state.data == st.data
    ensures r.state.errors == ValidateForm(st.data)
    ensures r.submitted.Some? <==> !Text.AllWhitespace(st.data.title) && st.data.dueDate != ""
    ensures r.submitted.Some? ==> r.submitted.value.title == Text.Trim(st.data.title)
    ensures r.submitted.Some? ==> r.submitted.value.title != ""
    ensures r.submitted.Some? ==> r.submitted.value.description == Text.Trim(st.data.description)
    ensures r.submitted.Some? ==> r.submitted.value.category == st.data.category
    ensures r.submitted.Some? ==> r.submitted.value.priority == st.data.priority
    ensures r.submitted.Some? ==> r.submitted.value.dueDate == toTimestamp(st.data.dueDate)
  {
    var errs := ValidateForm(st.data);
    var st' := st.(errors := errs);
    if |errs| != 0 then
      SubmitOutcome(st', None)
    else
      SubmitOutcome(st', Some(Submission(
        Text.Trim(st.data.title),
        Text.Trim(st.data.description),
        st.data.category,
        st.data.priority,
        toTimestamp(st.data.dueDate))))
  }

  /** A title of spaces, tabs or line breaks only yields the title error and
      is never submitted. */
  lemma BlankTitleBlocksSubmit(st: FormState, toTimestamp: string -> int)
    requires Text.AllWhitespace(st.data.title)
    ensures HandleSubmit(st, toTimestamp).submitted == None
    ensures HandleSubmit(st, toTimestamp).state.errors[Title] == TitleRequired
  {
  }

  /** Submitting what was submitted gives the same submission: the
      normalisation is idempotent. */
  lemma SubmitNormalisationIdempotent(st: FormState, toTimestamp: string -> int, dueText: string)
    requires !Text.AllWhitespace(st.data.title) && st.data.dueDate != ""
    requires dueText != ""
    ensures var s := HandleSubmit(st, toTimestamp).submitted.value;
      var again := FormState(FormData(s.title, s.description, s.category, s.priority, dueText), map[]);
      HandleSubmit(again, toTimestamp).submitted.Some?
      && HandleSubmit(again, toTimestamp).submitted.value.title == s.title
      && HandleSubmit(again, toTimestamp).submitted.value.description == s.description
  {
    var s := HandleSubmit(st, toTimestamp).submitted.value;
    Text.TrimIdempotent(st.data.title);
    Text.TrimIdempotent(st.data.description);
  }
}

=== FILE: task_list.dfy ===
/** The task list component: which store view a filter name loads, the
    search box applied on top of it, and what each action handler does to
    the store and to the list on screen. The list on screen is a local copy
    that each handler rewrites itself instead of reloading. */
module TaskList {
  import opened Wrappers
  import Records
  import Text
  import TaskService
  import TaskForm

  type Task = TaskService.Task

  // ---------------------------------------------------------------------
  // Loading

  /** `loadTasks`: "today", "upcoming" and "archive" select their views;
      any other filter name ("all" included) selects the active tasks. */
  function LoadTasks(s: seq<Task>, filter: string, now: int): (r: seq<Task>)
    ensures filter == "today" ==> r == TaskService.TodayTasks(s, now)
    ensures filter == "upcoming" ==> r == TaskService.UpcomingTasks(s, now)
    ensures filter == "archive" ==> r == TaskService.ArchivedTasks(s)
    ensures filter != "today" && filter != "upcoming" && filter != "archive"
      ==> r == TaskService.ActiveTasks(s)
    ensures forall t :: t in r ==> t in s && t.archived == (filter == "archive")
    ensures Records.IsSubsequence(r, s)
  {
    if filter == "today" then TaskService.TodayTasks(s, now)
    else if filter == "upcoming" then TaskService.UpcomingTasks(s, now)
    else if filter == "archive" then TaskService.ArchivedTasks(s)
    else TaskService.ActiveTasks(s)
  }

  // ---------------------------------------------------------------------
  // Search

  /** The lower-cased query `lq` occurs in the lower-cased title,
      description or category of `t`. */
  predicate Matches(t: Task, lq: string) {
    || Text.Contains(Text.Lower(t.title), lq)
    || Text.Contains(Text.Lower(t.description), lq)
    || Text.Contains(Text.Lower(t.category), lq)
  }

  /** `filteredTasks`: an empty query keeps the whole list; otherwise the
      entries matching the lower-cased query, in list order. */
  function Search(list: seq<Task>, query: string): (r: seq<Task>)
    ensures query == "" ==> r == list
    ensures query != "" ==> forall t :: t in r <==> t in list && Matches(t, Text.Lower(query))
    ensures query != "" ==>
              forall t :: multiset(r)[t] == if Matches(t, Text.Lower(query)) then multiset(list)[t] else 0
    ensures Records.IsSubsequence(r, list)
  {
    if query == "" then
      Records.SubsequenceReflexive(list);
      list
    else
      var lq := Text.Lower(query);
      Records.FilterCount(list, t => Matches(t, lq));
      Records.FilterIsSubsequence(list, t => Matches(t, lq));
      Records.FilterMembers(list, t => Matches(t, lq));
      Records.Filter(list, t => Matches(t, lq))
  }

  /** The text `lq` occurs in one of the searched fields of `t`, stated with
      explicit positions. */
  ghost predicate OccursInFields(t: Task, lq: string) {
    || (exists i :: Text.OccursAt(Text.Lower(t.title), lq, i))
    || (exists i :: Text.OccursAt(Text.Lower(t.description), lq, i))
    || (exists i :: Text.OccursAt(Text.Lower(t.category), lq, i))
  }

  /** For a non-empty query, an entry is kept exactly when the lower-cased
      query occurs at some position of its lower-cased title, description
      or category. */
  lemma SearchKeepsExactlyOccurrences(list: seq<Task>, query: string, t: Task)
    requires query != ""
    ensures t in Search(list, query) <==> t in list && OccursInFields(t, Text.Lower(query))
  {
    var lq := Text.Lower(query);
    Text.ContainsIff(Text.Lower(t.title), lq);
    Text.ContainsIff(Text.Lower(t.description), lq);
    Text.ContainsIff(Text.Lower(t.category), lq);
  }

  /** Queries that differ only in the case of ASCII letters select the same
      entries in the same order. */
  lemma SearchIgnoresCase(list: seq<Task>, q1: string, q2: string)
    requires Text.EqualIgnoringCase(q1, q2)
    ensures Search(list, q1) == Search(list, q2)
  {
    Text.EqualIgnoringCaseLower(q1, q2);
    if q1 != "" {
      var l1, l2 := Text.Lower(q1), Text.Lower(q2);
      Records.FilterExtensional(list, t => Matches(t, l1), t => Matches(t, l2));
    }
  }

  /** Searching again with the same query changes nothing. */
  lemma SearchIdempotent(list: seq<Task>, query: string)
    ensures Search(Search(list, query), query) == Search(list, query)
  {
    if query != "" {
      var lq := Text.Lower(query);
      var once := Search(list, query);
      Records.FilterKeepsAll(once, t => Matches(t, lq));
    }
  }

  // ---------------------------------------------------------------------
  // Rewrites of the list on screen

  /** `prev.map(task => task.Id === id ? x : task)`. A replacement that
      keeps the `Id` leaves every position's `Id` as it was, so a list
      without repeated `Id`s stays that way. */
  function ReplaceById(list: seq<Task>, id: int, x: Task): (r: seq<Task>)
    ensures |r| == |list|
    ensures forall i :: 0 <= i < |list| ==> r[i] == (if list[i].Id == id then x else list[i])
    ensures forall t :: t in r ==> t in list || t == x
    ensures x.Id == id ==> forall i :: 0 <= i < |r| ==> r[i].Id == list[i].Id
    ensures x.Id == id && TaskService.UniqueIds(list) ==> TaskService.UniqueIds(r)
  {
    var r := seq(|list|, i requires 0 <= i < |list| => if list[i].Id == id then x else list[i]);
    assert forall t :: t in r ==> exists i :: 0 <= i < |r| && r[i] == t;
    r
  }

  /** `prev.filter(task => task.Id !== id)`. */
  function RemoveById(list: seq<Task>, id: int): (r: seq<Task>)
    ensures forall t :: t in r <==> t in list && t.Id != id
    ensures forall t :: multiset(r)[t] == if t.Id != id then multiset(list)[t] else 0
    ensures Records.IsSubsequence(r, list)
  {
    Records.FilterCount(list, (t: Task) => t.Id != id);
    Records.FilterIsSubsequence(list, (t: Task) => t.Id != id);
    Records.FilterMembers(list, (t: Task) => t.Id != id);
    Records.Filter(list, (t: Task) => t.Id != id)
  }

  /** What the component holds: the service's store and the list on screen. */
  datatype Screen = Screen(store: seq<Task>, list: seq<Task>)

  /** The list on screen shows current store records only, and neither the
      store nor the list repeats an `Id`. */
  ghost predicate Synced(sc: Screen) {
    && TaskService.UniqueIds(sc.store)
    && TaskService.UniqueIds(sc.list)
    && forall t :: t in sc.list ==> t in sc.store
  }

  /** Loading any view into the list gives a synced screen. */
  lemma LoadIsSynced(s: seq<Task>, filter: string, now: int)
    requires TaskService.UniqueIds(s)
    ensures Synced(Screen(s, LoadTasks(s, filter, now)))
  {
    Records.SubsequenceKeepsUnique(LoadTasks(s, filter, now), s, TaskService.TaskId);
  }

  // ---------------------------------------------------------------------
  // Handlers. A failing service call is caught and only reported, so the
  // screen is left as it was.

  function HandleToggleComplete(sc: Screen, id: int): (r: Screen)
    ensures !TaskService.HasId(sc.store, id) ==> r == sc
    ensures TaskService.HasId(sc.store, id) ==>
              r.store == TaskService.ToggleComplete(sc.store, id).value.store
    ensures TaskService.HasId(sc.store, id) ==>
              r.list == ReplaceById(sc.list, id, TaskService.ToggleComplete(sc.store, id).value.task)
    ensures |r.list| == |sc.list|
    ensures forall i :: 0 <= i < |sc.list| && sc.list[i].Id != id ==> r.list[i] == sc.list[i]
    ensures Synced(sc) ==> Synced(r)
    ensures Synced(sc) ==> forall i :: 0 <= i < |sc.list| && sc.list[i].Id == id ==>
              r.list[i] == sc.list[i].(completed := !sc.list[i].completed)
  {
    match TaskService.ToggleComplete(sc.store, id)
    case Failure(_) =>
      ShownIdsAreStored(sc);
      sc
    case Success(a) =>
      var k :| TaskService.Located(sc.store, id, k)
        && a.task == sc.store[k].(completed := !sc.store[k].completed)
        && a.store == sc.store[k := a.task];
      ReplaceKeepsSynced(sc, id, a, k);
      Screen(a.store, ReplaceById(sc.list, id, a.task))
  }

  /** On a synced screen every `Id` shown is an `Id` in the store. */
  lemma ShownIdsAreStored(sc: Screen)
    ensures Synced(sc) ==> forall i :: 0 <= i < |sc.list| ==> TaskService.HasId(sc.store, sc.list[i].Id)
  {
    if Synced(sc) {
      forall i | 0 <= i < |sc.list|
        ensures TaskService.HasId(sc.store, sc.list[i].Id)
      {
        assert sc.list[i] in sc.list;
        var m :| 0 <= m < |sc.store| && sc.store[m] == sc.list[i];
        assert TaskService.TaskId(sc.store[m]) == sc.list[i].Id;
      }
    }
  }

  /** Replacing the stored record with `id` by `a.task` (same `Id`), in the
      store and in the list, keeps the screen synced; each list entry with
      `id` was that record. */
  lemma ReplaceKeepsSynced(sc: Screen, id: int, a: TaskService.Applied, k: int)
    requires a.task.Id == id
    requires TaskService.Located(sc.store, id, k) && a.store == sc.store[k := a.task]
    ensures Synced(sc) ==> Synced(Screen(a.store, ReplaceById(sc.list, id, a.task)))
    ensures Synced(sc) ==> forall i :: 0 <= i < |sc.list| && sc.list[i].Id == id ==>
              sc.list[i] == sc.store[k]
  {
    var list' := ReplaceById(sc.list, id, a.task);
    if Synced(sc) {
      Records.ReplaceKeepsUnique(sc.store, k, a.task, TaskService.TaskId);
      assert forall i :: 0 <= i < |sc.list| ==> list'[i].Id == sc.list[i].Id;
      forall t | t in list'
        ensures t in a.store
      {
        var i :| 0 <= i < |list'| && list'[i] == t;
        if sc.list[i].Id == id {
          assert a.store[k] == t;
        } else {
          assert sc.list[i] in sc.list;
          var m :| 0 <= m < |sc.store| && sc.store[m] == sc.list[i];
          assert a.store[m] == t;
        }
      }
      forall i | 0 <= i < |sc.list| && sc.list[i].Id == id
        ensures sc.list[i] == sc.store[k]
      {
        assert sc.list[i] in sc.list;
        var m :| 0 <= m < |sc.store| && sc.store[m] == sc.list[i];
        Records.UniqueFirstAt(sc.store, TaskService.TaskId, id, m);
        Records.FirstAtUnique(sc.store, TaskService.TaskId, id, k, m);
      }
    }
  }

  /** Changing only the stored record with `id` and dropping every entry
      with `id` from the list keeps the screen synced. */
  lemma RemoveKeepsSynced(sc: Screen, id: int, store': seq<Task>)
    requires forall t :: t in sc.store && t.Id != id ==> t in store'
    requires TaskService.UniqueIds(sc.store) ==> TaskService.UniqueIds(store')
    ensures Synced(sc) ==> Synced(Screen(store', RemoveById(sc.list, id)))
  {
    if Synced(sc) {
      Records.SubsequenceKeepsUnique(RemoveById(sc.list, id), sc.list, TaskService.TaskId);
    }
  }

  /** Records other than the one with `id` survive a successful
      `ToggleComplete`, `ArchiveTask` or `RestoreTask`. */
  lemma ReplaceKeepsOthers(s: seq<Task>, id: int, k: int, x: Task)
    requires TaskService.Located(s, id, k)
    ensures forall t :: t in s && t.Id != id ==> t in s[k := x]
  {
    forall t | t in s && t.Id != id
      ensures t in s[k := x]
    {
      var m :| 0 <= m < |s| && s[m] == t;
      assert s[k := x][m] == t;
    }
  }

  function HandleDelete(sc: Screen, id: int, confirmed: bool): (r: Screen)
    ensures !confirmed || !TaskService.HasId(sc.store, id) ==> r == sc
    ensures confirmed && TaskService.HasId(sc.store, id) ==>
              r.store == TaskService.Delete(sc.store, id).value.store
              && r.list == RemoveById(sc.list, id)
    ensures Synced(sc) ==> Synced(r)
    ensures Synced(sc) && confirmed ==> !TaskService.HasId(r.store, id)
    ensures Synced(sc) && confirmed ==> forall t :: t in r.list ==> t.Id != id
  {
    if !confirmed then sc
    else
      match TaskService.Delete(sc.store, id)
      case Failure(_) => sc
      case Success(a) =>
        var k :| TaskService.Located(sc.store, id, k) && a.task == sc.store[k]
          && a.store == sc.store[..k] + sc.store[k + 1..];
        forall t | t in sc.store && t.Id != id
          ensures t in a.store
        {
          var m :| 0 <= m < |sc.store| && sc.store[m] == t;
          if m < k {
            assert a.store[m] == t;
          } else {
            assert a.store[m - 1] == t;
          }
        }
        RemoveKeepsSynced(sc, id, a.store);
        Screen(a.store, RemoveById(sc.list, id))
  }

  function HandleArchive(sc: Screen, id: int): (r: Screen)
    ensures !TaskService.HasId(sc.store, id) ==> r == sc
    ensures TaskService.HasId(sc.store, id) ==>
              r.store == TaskService.ArchiveTask(sc.store, id).value.store
              && r.list == RemoveById(sc.list, id)
    ensures forall t :: t in r.list ==> t in sc.list
    ensures TaskService.HasId(sc.store, id) ==> forall t :: t in r.list ==> t.Id != id
    ensures Synced(sc) ==> Synced(r)
  {
    match TaskService.ArchiveTask(sc.store, id)
    case Failure(_) => sc
    case Success(a) =>
      var k :| TaskService.Located(sc.store, id, k) && a.store == sc.store[k := a.task]
        && a.task == sc.store[k].(archived := true);
      ReplaceKeepsOthers(sc.store, id, k, a.task);
      RemoveKeepsSynced(sc, id, a.store);
      Screen(a.store, RemoveById(sc.list, id))
  }

  function HandleRestore(sc: Screen, id: int): (r: Screen)
    ensures !TaskService.HasId(sc.store, id) ==> r == sc
    ensures TaskService.HasId(sc.store, id) ==>
              r.store == TaskService.RestoreTask(sc.store, id).value.store
              && r.list == RemoveById(sc.list, id)
    ensures forall t :: t in r.list ==> t in sc.list
    ensures TaskService.HasId(sc.store, id) ==> forall t :: t in r.list ==> t.Id != id
    ensures Synced(sc) ==> Synced(r)
  {
    match TaskService.RestoreTask(sc.store, id)
    case Failure(_) => sc
    case Success(a) =>
      var k :| TaskService.Located(sc.store, id, k) && a.store == sc.store[k := a.task]
        && a.task == sc.store[k].(archived := false);
      ReplaceKeepsOthers(sc.store, id, k, a.task);
      RemoveKeepsSynced(sc, id, a.store);
      Screen(a.store, RemoveById(sc.list, id))
  }

  /** A submission as the `create` argument: the description is present. */
  function InputOf(sub: TaskForm.Submission): TaskService.TaskInput {
    TaskService.TaskInput(sub.title, Some(sub.description), sub.category, sub.priority, sub.dueDate)
  }

  /** A submission as the `update` argument: it carries exactly the five form
      fields, never `Id`, `completed`, `archived` or `createdAt`. */
  function PatchOf(sub: TaskForm.Submission): TaskService.TaskPatch {
    TaskService.TaskPatch(None, Some(sub.title), Some(sub.description), Some(sub.category),
                          Some(sub.priority), Some(sub.dueDate), None, None, None)
  }

  /** `handleFormSubmit`: with a task selected, update it and replace its
      entries in the list; otherwise create a task and put it at the front of
      the list, while the store appends it at the end. */
  function HandleFormSubmit(sc: Screen, selected: Option<Task>, sub: TaskForm.Submission, now: int): (r: Screen)
    ensures selected.None? ==>
              var created := TaskService.Create(sc.store, InputOf(sub), now).task;
              && r.store == sc.store + [created]
              && r.list == [created] + sc.list
              && created.title == sub.title && created.description == sub.description
              && !created.completed && !created.archived
    ensures selected.Some? && !TaskService.HasId(sc.store, selected.value.Id) ==> r == sc
    ensures selected.Some? && TaskService.HasId(sc.store, selected.value.Id) ==>
              var updated := TaskService.Update(sc.store, selected.value.Id, PatchOf(sub)).value.task;
              && r.store == TaskService.Update(sc.store, selected.value.Id, PatchOf(sub)).value.store
              && r.list == ReplaceById(sc.list, selected.value.Id, updated)
              && updated.Id == selected.value.Id
              && updated.title == sub.title && updated.dueDate == sub.dueDate
    ensures Synced(sc) ==> Synced(r)
  {
    match selected
    case Some(sel) =>
      (match TaskService.Update(sc.store, sel.Id, PatchOf(sub))
       case Failure(_) => sc
       case Success(a) =>
         var k :| TaskService.Located(sc.store, sel.Id, k)
           && a.task == TaskService.Merge(sc.store[k], PatchOf(sub))
           && a.store == sc.store[k := a.task];
         ReplaceKeepsSynced(sc, sel.Id, a, k);
         Screen(a.store, ReplaceById(sc.list, sel.Id, a.task)))
    case None =>
      var a := TaskService.Create(sc.store, InputOf(sub), now);
      CreateKeepsSynced(sc, a);
      Screen(a.store, [a.task] + sc.list)
  }

  lemma CreateKeepsSynced(sc: Screen, a: TaskService.Applied)
    requires a.store == sc.store + [a.task]
    requires forall i :: 0 <= i < |sc.store| ==> sc.store[i].Id < a.task.Id
    requires TaskService.UniqueIds(sc.store) ==> TaskService.UniqueIds(a.store)
    ensures Synced(sc) ==> Synced(Screen(a.store, [a.task] + sc.list))
  {
    if Synced(sc) {
      var list' := [a.task] + sc.list;
      forall i, j | 0 <= i < j < |list'|
        ensures list'[i].Id != list'[j].Id
      {
        assert list'[j] == sc.list[j - 1];
        if i == 0 {
          assert sc.list[j - 1] in sc.list;
          var m :| 0 <= m < |sc.store| && sc.store[m] == list'[j];
        } else {
          assert list'[i] == sc.list[i - 1];
        }
      }
    }
  }

  /** On a synced screen, toggling the same `Id` twice brings back the
      store and the list exactly. */
  lemma ToggleTwiceRestoresScreen(sc: Screen, id: int)
    requires Synced(sc)
    ensures HandleToggleComplete(HandleToggleComplete(sc, id), id) == sc
  {
    var r1 := HandleToggleComplete(sc, id);
    var r2 := HandleToggleComplete(r1, id);
    TaskService.ToggleTwiceRestores(sc.store, id);
    if TaskService.HasId(sc.store, id) {
      var k :| TaskService.Located(sc.store, id, k) && r1.store == sc.store[k := sc.store[k].(completed := !sc.store[k].completed)];
      assert r1.store[k].Id == id;
      assert forall i :: 0 <= i < |sc.list| && sc.list[i].Id == id ==>
        r2.list[i] == sc.list[i].(completed := !sc.list[i].completed).(completed := !!sc.list[i].completed);
      assert r2.list == sc.list;
    }
  }

  /** Only a form that passes validation reaches the store, and the task it
      creates has a non-blank, trimmed title. */
  lemma FormCreatesOnlyValidTasks(sc: Screen, st: TaskForm.FormState, toTimestamp: string -> int, now: int)
    ensures var out := TaskForm.HandleSubmit(st, toTimestamp);
      out.submitted.Some? ==>
        var r := HandleFormSubmit(sc, None, out.submitted.value, now);
        && |r.store| == |sc.store| + 1
        && r.list[0] == r.store[|r.store| - 1]
        && r.list[0].title == Text.Trim(st.data.title)
        && !Text.AllWhitespace(r.list[0].title)
  {
    var out := TaskForm.HandleSubmit(st, toTimestamp);
    if out.submitted.Some? {
      var r := HandleFormSubmit(sc, None, out.submitted.value, now);
      var t := r.list[0].title;
      assert t != "";
      Text.TrimIdempotent(st.data.title);
      assert Text.Trim(t) == t;
    }
  }
}

=== FILE: task_service.dfy ===
/** The in-memory task store and its derived views. The store is an ordered
    sequence of task records; every operation is a pure transition from a
    store to either the new store and the affected record, or the error the
    service throws. Timestamps (due date, creation time, the current instant
    `now`) are integer milliseconds since the epoch, in UTC. */
module TaskService {
  import opened Wrappers
  import Records

  /** Milliseconds in one day, and in the seven-day "upcoming" window. */
  const DayMs: int := 86400000
  const WeekMs: int := 7 * DayMs

  datatype Task = Task(
    Id: int,
    title: string,
    description: string,
    category: string,
    priority: string,
    dueDate: int,
    completed: bool,
    archived: bool,
    createdAt: int)

  function TaskId(t: Task): int { t.Id }

  /** The fields a caller supplies to `create`; an absent description is
      `None`. */
  datatype TaskInput = TaskInput(
    title: string,
    description: Option<string>,
    category: string,
    priority: string,
    dueDate: int)

  /** The fields a caller supplies to `update`, each present or absent. The
      patch is spread over the stored record, so even `Id` can be given. */
  datatype TaskPatch = TaskPatch(
    Id: Option<int>,
    title: Option<string>,
    description: Option<string>,
    category: Option<string>,
    priority: Option<string>,
    dueDate: Option<int>,
    completed: Option<bool>,
    archived: Option<bool>,
    createdAt: Option<int>)

  const EmptyPatch: TaskPatch := TaskPatch(None, None, None, None, None, None, None, None, None)

  datatype Error = NotFound(message: string)

  const TaskNotFound: Error := NotFound("Task not found")

  /** A successful operation: the store afterwards and the record returned. */
  datatype Applied = Applied(store: seq<Task>, task: Task)

  /** The store as an operation leaves it: a failed operation throws before
      touching the store. */
  function StoreAfter(s: seq<Task>, r: Result<Applied, Error>): seq<Task> {
    if r.Success? then r.value.store else s
  }

  predicate HasId(s: seq<Task>, id: int) {
    Records.HasKey(s, TaskId, id)
  }

  /** `k` is where `findIndex(t => t.Id === id)` lands. */
  predicate Located(s: seq<Task>, id: int, k: int) {
    Records.FirstAt(s, TaskId, id, k)
  }

  ghost predicate UniqueIds(s: seq<Task>) {
    Records.UniqueKeys(s, TaskId)
  }

  /** The record with `id`, or `TaskNotFound`. */
  function GetById(s: seq<Task>, id: int): (r: Result<Task, Error>)
    ensures r.Failure? <==> !HasId(s, id)
    ensures r.Failure? ==> r.error == TaskNotFound
    ensures r.Success? ==> exists k :: Located(s, id, k) && r.value == s[k]
  {
    match Records.IndexOf(s, TaskId, id)
    case None => Failure(TaskNotFound)
    case Some(k) => Success(s[k])
  }

  /** Adds a task at the end of the store. Its `Id` is one above the largest
      `Id` in use (1 when there is none), so it differs from every existing
      `Id`; it starts neither completed nor archived. */
  function Create(s: seq<Task>, input: TaskInput, now: int): (r: Applied)
    ensures r.store == s + [r.task]
    ensures forall i :: 0 <= i < |s| ==> s[i].Id < r.task.Id
    ensures r.task.Id >= 1
    ensures r.task.Id == 1 || HasId(s, r.task.Id - 1)
    ensures r.task.title == input.title
    ensures r.task.description == input.description.GetOr("")
    ensures r.task.category == input.category
    ensures r.task.priority == input.priority
    ensures r.task.dueDate == input.dueDate
    ensures !r.task.completed && !r.task.archived
    ensures r.task.createdAt == now
    ensures UniqueIds(s) ==> UniqueIds(r.store)
  {
    var t := Task(
      Records.NextKey(s, TaskId),
      input.title,
      input.description.GetOr(""),
      input.category,
      input.priority,
      input.dueDate,
      false,
      false,
      now);
    Applied(s + [t], t)
  }

  /** `{ ...t, ...p }`: every field present in `p` overrides the one of `t`. */
  function Merge(t: Task, p: TaskPatch): (r: Task)
    ensures r.Id == p.Id.GetOr(t.Id)
    ensures r.title == p.title.GetOr(t.title)
    ensures r.description == p.description.GetOr(t.description)
    ensures r.category == p.category.GetOr(t.category)
    ensures r.priority == p.priority.GetOr(t.priority)
    ensures r.dueDate == p.dueDate.GetOr(t.dueDate)
    ensures r.completed == p.completed.GetOr(t.completed)
    ensures r.archived == p.archived.GetOr(t.archived)
    ensures r.createdAt == p.createdAt.GetOr(t.createdAt)
  {
    Task(
      p.Id.GetOr(t.Id),
      p.title.GetOr(t.title),
      p.description.GetOr(t.description),
      p.category.GetOr(t.category),
      p.priority.GetOr(t.priority),
      p.dueDate.GetOr(t.dueDate),
      p.completed.GetOr(t.completed),
      p.archived.GetOr(t.archived),
      p.createdAt.GetOr(t.createdAt))
  }

  /** Shallow-merges `patch` into the record with `id`, in place. */
  function Update(s: seq<Task>, id: int, patch: TaskPatch): (r: Result<Applied, Error>)
    ensures r.Failure? <==> !HasId(s, id)
    ensures r.Failure? ==> r.error == TaskNotFound
    ensures r.Success? ==> (exists k :: Located(s, id, k)
                              && r.value.task == Merge(s[k], patch)
                              && r.value.store == s[k := r.value.task])
    ensures r.Success? && patch.Id.None? ==> r.value.task.Id == id
    ensures r.Success? && (patch.Id.None? || patch.Id == Some(id)) && UniqueIds(s)
      ==> UniqueIds(r.value.store)
  {
    match Records.IndexOf(s, TaskId, id)
    case None => Failure(TaskNotFound)
    case Some(k) =>
      var t := Merge(s[k], patch);
      Records.ReplaceKeepsUnique(s, k, t, TaskId);
      Success(Applied(s[k := t], t))
  }

  /** Splices the record with `id` out of the store and returns it. */
  function Delete(s: seq<Task>, id: int): (r: Result<Applied, Error>)
    ensures r.Failure? <==> !HasId(s, id)
    ensures r.Failure? ==> r.error == TaskNotFound
    ensures r.Success? ==> (exists k :: Located(s, id, k)
                              && r.value.task == s[k]
                              && r.value.store == s[..k] + s[k + 1..])
    ensures r.Success? ==> |r.value.store| == |s| - 1
    ensures r.Success? ==> multiset(r.value.store) + multiset{r.value.task} == multiset(s)
    ensures r.Success? ==> Records.IsSubsequence(r.value.store, s)
    ensures r.Success? && UniqueIds(s) ==> UniqueIds(r.value.store) && !HasId(r.value.store, id)
  {
    match Records.IndexOf(s, TaskId, id)
    case None => Failure(TaskNotFound)
    case Some(k) =>
      var rest := Records.RemoveAt(s, k);
      Records.RemoveAtIsSubsequence(s, k);
      Records.RemoveKeepsUnique(s, k, TaskId);
      Success(Applied(rest, s[k]))
  }

  /** Flips `completed` on the record with `id`. */
  function ToggleComplete(s: seq<Task>, id: int): (r: Result<Applied, Error>)
    ensures r.Failure? <==> !HasId(s, id)
    ensures r.Failure? ==> r.error == TaskNotFound
    ensures r.Success? ==> (exists k :: Located(s, id, k)
                              && r.value.task == s[k].(completed := !s[k].completed)
                              && r.value.store == s[k := r.value.task])
    ensures r.Success? && UniqueIds(s) ==> UniqueIds(r.value.store)
  {
    match Records.IndexOf(s, TaskId, id)
    case None => Failure(TaskNotFound)
    case Some(k) =>
      var t := s[k].(completed := !s[k].completed);
      Records.ReplaceKeepsUnique(s, k, t, TaskId);
      Success(Applied(s[k := t], t))
  }

  /** Sets `archived` on the record with `id`. */
  function ArchiveTask(s: seq<Task>, id: int): (r: Result<Applied, Error>)
    ensures r.Failure? <==> !HasId(s, id)
    ensures r.Failure? ==> r.error == TaskNotFound
    ensures r.Success? ==> (exists k :: Located(s, id, k)
                              && r.value.task == s[k].(archived := true)
                              && r.value.store == s[k := r.value.task])
    ensures r.Success? && UniqueIds(s) ==> UniqueIds(r.value.store)
  {
    match Records.IndexOf(s, TaskId, id)
    case None => Failure(TaskNotFound)
    case Some(k) =>
      var t := s[k].(archived := true);
      Records.ReplaceKeepsUnique(s, k, t, TaskId);
      Success(Applied(s[k := t], t))
  }

  /** Clears `archived` on the record with `id`. */
  function RestoreTask(s: seq<Task>, id: int): (r: Result<Applied, Error>)
    ensures r.Failure? <==> !HasId(s, id)
    ensures r.Failure? ==> r.error == TaskNotFound
    ensures r.Success? ==> (exists k :: Located(s, id, k)
                              && r.value.task == s[k].(archived := false)
                              && r.value.store == s[k := r.value.task])
    ensures r.Success? && UniqueIds(s) ==> UniqueIds(r.value.store)
  {
    match Records.IndexOf(s, TaskId, id)
    case None => Failure(TaskNotFound)
    case Some(k) =>
      var t := s[k].(archived := false);
      Records.ReplaceKeepsUnique(s, k, t, TaskId);
      Success(Applied(s[k := t], t))
  }

  // ---------------------------------------------------------------------
  // Views

  /** The UTC calendar day of a timestamp; two instants share the ISO date
      prefix `yyyy-mm-dd` exactly when their `UtcDay`s agree. Dafny's `/`
      rounds down, which is also right before 1970. */
  function UtcDay(t: int): int {
    t / DayMs
  }

  predicate IsActive(t: Task) {
    !t.archived
  }

  predicate IsArchived(t: Task) {
    t.archived
  }

  /** Today's rule: not archived, and due on the current UTC day or already
      due. */
  predicate DueToday(t: Task, now: int) {
    !t.archived && (UtcDay(t.dueDate) == UtcDay(now) || t.dueDate <= now)
  }

  /** Upcoming's rule: not archived, and due after `now` but at most seven
      days later. */
  predicate DueUpcoming(t: Task, now: int) {
    !t.archived && now < t.dueDate <= now + WeekMs
  }

  function TodayRule(now: int): Task -> bool {
    t => DueToday(t, now)
  }

  function UpcomingRule(now: int): Task -> bool {
    t => DueUpcoming(t, now)
  }

  function ActiveTasks(s: seq<Task>): (r: seq<Task>)
    ensures forall t :: t in r <==> t in s && !t.archived
    ensures forall t :: multiset(r)[t] == if !t.archived then multiset(s)[t] else 0
    ensures Records.IsSubsequence(r, s)
  {
    Records.FilterCount(s, IsActive);
    Records.FilterIsSubsequence(s, IsActive);
    Records.FilterMembers(s, IsActive);
    Records.Filter(s, IsActive)
  }

  function ArchivedTasks(s: seq<Task>): (r: seq<Task>)
    ensures forall t :: t in r <==> t in s && t.archived
    ensures forall t :: multiset(r)[t] == if t.archived then multiset(s)[t] else 0
    ensures Records.IsSubsequence(r, s)
  {
    Records.FilterCount(s, IsArchived);
    Records.FilterIsSubsequence(s, IsArchived);
    Records.FilterMembers(s, IsArchived);
    Records.Filter(s, IsArchived)
  }

  function TodayTasks(s: seq<Task>, now: int): (r: seq<Task>)
    ensures forall t :: t in r <==> t in s && DueToday(t, now)
    ensures forall t :: multiset(r)[t] == if DueToday(t, now) then multiset(s)[t] else 0
    ensures Records.IsSubsequence(r, s)
  {
    Records.FilterCount(s, TodayRule(now));
    Records.FilterIsSubsequence(s, TodayRule(now));
    Records.FilterMembers(s, TodayRule(now));
    Records.Filter(s, TodayRule(now))
  }

  function UpcomingTasks(s: seq<Task>, now: int): (r: seq<Task>)
    ensures forall t :: t in r <==> t in s && DueUpcoming(t, now)
    ensures forall t :: multiset(r)[t] == if DueUpcoming(t, now) then multiset(s)[t] else 0
    ensures Records.IsSubsequence(r, s)
  {
    Records.FilterCount(s, UpcomingRule(now));
    Records.FilterIsSubsequence(s, UpcomingRule(now));
    Records.FilterMembers(s, UpcomingRule(now));
    Records.Filter(s, UpcomingRule(now))
  }

  /** Active and Archived split the store: each record is in exactly one. */
  lemma ActiveArchivedPartition(s: seq<Task>)
    ensures multiset(ActiveTasks(s)) + multiset(ArchivedTasks(s)) == multiset(s)
    ensures |ActiveTasks(s)| + |ArchivedTasks(s)| == |s|
  {
    Records.FilterComplement(s, IsActive, IsArchived);
  }

  /** An overdue task shows under Today and never under Upcoming. */
  lemma OverdueIsTodayNotUpcoming(s: seq<Task>, now: int, t: Task)
    requires t in s && !t.archived && t.dueDate <= now
    ensures t in TodayTasks(s, now)
    ensures t !in UpcomingTasks(s, now)
  {
  }

  /** An archived task shows in none of the active views. */
  lemma ArchivedInNoActiveView(s: seq<Task>, now: int, t: Task)
    requires t.archived
    ensures t !in ActiveTasks(s)
    ensures t !in TodayTasks(s, now)
    ensures t !in UpcomingTasks(s, now)
  {
  }

  /** Today and Upcoming overlap: a task due later on the current UTC day
      appears in both. */
  lemma DueLaterTodayInBoth(s: seq<Task>, now: int, t: Task)
    requires t in s && !t.archived
    requires now < t.dueDate && UtcDay(t.dueDate) == UtcDay(now)
    ensures t in TodayTasks(s, now)
    ensures t in UpcomingTasks(s, now)
  {
    assert t.dueDate < (UtcDay(now) + 1) * DayMs;
    assert UtcDay(now) * DayMs <= now;
  }

  /** The five tasks of the example below: due a day ago, now, in three
      days, in ten days, and an archived one due now. */
  predicate ExampleTasks(now: int, a: Task, b: Task, c: Task, d: Task, e: Task) {
    && a.dueDate == now - DayMs && b.dueDate == now
    && c.dueDate == now + 3 * DayMs && d.dueDate == now + 10 * DayMs
    && e.dueDate == now
    && !a.archived && !b.archived && !c.archived && !d.archived && e.archived
  }

  /** On the example tasks, Today holds the first two, Upcoming the third,
      Archive the fifth, and the active view the first four: the task due in
      ten days is active although it is in neither Today nor Upcoming. */
  lemma ViewsExample(now: int, a: Task, b: Task, c: Task, d: Task, e: Task)
    requires ExampleTasks(now, a, b, c, d, e)
    ensures TodayTasks([a, b, c, d, e], now) == [a, b]
    ensures UpcomingTasks([a, b, c, d, e], now) == [c]
    ensures ArchivedTasks([a, b, c, d, e]) == [e]
    ensures ActiveTasks([a, b, c, d, e]) == [a, b, c, d]
  {
    var s := [a, b, c, d, e];
    TodayExample(now, a, b, c, d, e);
    assert TodayTasks(s, now) == [a, b];
    UpcomingExample(now, a, b, c, d, e);
    assert UpcomingTasks(s, now) == [c];
    ArchiveExample(now, a, b, c, d, e);
    assert ArchivedTasks(s) == [e];
    ActiveExample(now, a, b, c, d, e);
    assert ActiveTasks(s) == [a, b, c, d];
  }

  lemma ArchiveExample(now: int, a: Task, b: Task, c: Task, d: Task, e: Task)
    requires ExampleTasks(now, a, b, c, d, e)
    ensures Records.Filter([a, b, c, d, e], IsArchived) == [e]
  {
    Records.FilterFive(a, b, c, d, e, IsArchived);
  }

  lemma ActiveExample(now: int, a: Task, b: Task, c: Task, d: Task, e: Task)
    requires ExampleTasks(now, a, b, c, d, e)
    ensures Records.Filter([a, b, c, d, e], IsActive) == [a, b, c, d]
  {
    Records.FilterFive(a, b, c, d, e, IsActive);
  }

  lemma TodayExample(now: int, a: Task, b: Task, c: Task, d: Task, e: Task)
    requires ExampleTasks(now, a, b, c, d, e)
    ensures Records.Filter([a, b, c, d, e], TodayRule(now)) == [a, b]
  {
    assert UtcDay(now + 3 * DayMs) != UtcDay(now);
    assert UtcDay(now + 10 * DayMs) != UtcDay(now);
    Records.FilterFive(a, b, c, d, e, TodayRule(now));
  }

  lemma UpcomingExample(now: int, a: Task, b: Task, c: Task, d: Task, e: Task)
    requires ExampleTasks(now, a, b, c, d, e)
    ensures Records.Filter([a, b, c, d, e], UpcomingRule(now)) == [c]
  {
    Records.FilterFive(a, b, c, d, e, UpcomingRule(now));
  }

  // ---------------------------------------------------------------------
  // Laws relating operations

  /** Toggling twice gives back the original store, whether or not `id` is
      present. */
  lemma ToggleTwiceRestores(s: seq<Task>, id: int)
    ensures StoreAfter(StoreAfter(s, ToggleComplete(s, id)), ToggleComplete(StoreAfter(s, ToggleComplete(s, id)), id)) == s
  {
    var r1 := ToggleComplete(s, id);
    if r1.Success? {
      var k :| Located(s, id, k) && r1.value.store == s[k := r1.value.task]
        && r1.value.task == s[k].(completed := !s[k].completed);
      var s1 := r1.value.store;
      assert Located(s1, id, k);
      var r2 := ToggleComplete(s1, id);
      var k2 :| Located(s1, id, k2) && r2.value.store == s1[k2 := r2.value.task]
        && r2.value.task == s1[k2].(completed := !s1[k2].completed);
      Records.FirstAtUnique(s1, TaskId, id, k, k2);
      assert r2.value.store == s;
    }
  }

  /** Archiving an archived record changes nothing further. */
  lemma ArchiveIdempotent(s: seq<Task>, id: int)
    ensures StoreAfter(StoreAfter(s, ArchiveTask(s, id)), ArchiveTask(StoreAfter(s, ArchiveTask(s, id)), id))
      == StoreAfter(s, ArchiveTask(s, id))
  {
    var r1 := ArchiveTask(s, id);
    if r1.Success? {
      var k :| Located(s, id, k) && r1.value.store == s[k := r1.value.task]
        && r1.value.task == s[k].(archived := true);
      var s1 := r1.value.store;
      assert Located(s1, id, k);
      var r2 := ArchiveTask(s1, id);
      var k2 :| Located(s1, id, k2) && r2.value.store == s1[k2 := r2.value.task]
        && r2.value.task == s1[k2].(archived := true);
      Records.FirstAtUnique(s1, TaskId, id, k, k2);
      assert r2.value.store == s1;
    }
  }

  /** Restoring right after archiving leaves the record un-archived with all
      its other fields as they were; on a record that was not archived the
      pair changes nothing. */
  lemma ArchiveThenRestore(s: seq<Task>, id: int, k: nat)
    requires Located(s, id, k)
    ensures ArchiveTask(s, id).Success?
    ensures RestoreTask(ArchiveTask(s, id).value.store, id).Success?
    ensures RestoreTask(ArchiveTask(s, id).value.store, id).value.store == s[k := s[k].(archived := false)]
    ensures !s[k].archived ==> RestoreTask(ArchiveTask(s, id).value.store, id).value.store == s
  {
    var r1 := ArchiveTask(s, id);
    var k1 :| Located(s, id, k1) && r1.value.store == s[k1 := r1.value.task]
      && r1.value.task == s[k1].(archived := true);
    Records.FirstAtUnique(s, TaskId, id, k, k1);
    var s1 := r1.value.store;
    assert Located(s1, id, k);
    var r2 := RestoreTask(s1, id);
    var k2 :| Located(s1, id, k2) && r2.value.store == s1[k2 := r2.value.task]
      && r2.value.task == s1[k2].(archived := false);
    Records.FirstAtUnique(s1, TaskId, id, k, k2);
    if !s[k].archived {
      assert s[k].(archived := false) == s[k];
      assert r2.value.store == s;
    }
  }

  /** A created task is not archived, so it shows at the end of the active
      view and the archived view stays as it was. */
  lemma CreateExtendsActiveView(s: seq<Task>, input: TaskInput, now: int)
    ensures var c := Create(s, input, now);
      ActiveTasks(c.store) == ActiveTasks(s) + [c.task]
      && ArchivedTasks(c.store) == ArchivedTasks(s)
  {
    var c := Create(s, input, now);
    Records.FilterAppend(s, [c.task], IsActive);
    Records.FilterAppend(s, [c.task], IsArchived);
    Records.FilterCons(c.task, [], IsActive);
    Records.FilterCons(c.task, [], IsArchived);
    assert [c.task] + [] == [c.task];
  }

  /** An empty patch leaves the store as it was. */
  lemma UpdateEmptyPatchNoOp(s: seq<Task>, id: int)
    ensures StoreAfter(s, Update(s, id, EmptyPatch)) == s
  {
    var r := Update(s, id, EmptyPatch);
    if r.Success? {
      var k :| Located(s, id, k) && r.value.task == Merge(s[k], EmptyPatch)
        && r.value.store == s[k := r.value.task];
      assert Merge(s[k], EmptyPatch) == s[k];
    }
  }

  /** Applying the same patch twice has the effect of applying it once, when
      the patch keeps the record's `Id` or the store has unique `Id`s. In
      the second case a patch that changes the `Id` leaves no record with
      `id`, so the second call fails and changes nothing. */
  lemma UpdateIdempotent(s: seq<Task>, id: int, patch: TaskPatch)
    requires patch.Id.None? || patch.Id == Some(id) || UniqueIds(s)
    ensures var s1 := StoreAfter(s, Update(s, id, patch));
      StoreAfter(s1, Update(s1, id, patch)) == s1
  {
    var r1 := Update(s, id, patch);
    if r1.Success? {
      var k :| Located(s, id, k) && r1.value.task == Merge(s[k], patch)
        && r1.value.store == s[k := r1.value.task];
      var s1 := r1.value.store;
      if r1.value.task.Id == id {
        assert Located(s1, id, k);
        var r2 := Update(s1, id, patch);
        var k2 :| Located(s1, id, k2) && r2.value.task == Merge(s1[k2], patch)
          && r2.value.store == s1[k2 := r2.value.task];
        Records.FirstAtUnique(s1, TaskId, id, k, k2);
        assert Merge(Merge(s[k], patch), patch) == Merge(s[k], patch);
      } else {
        forall i | 0 <= i < |s1|
          ensures s1[i].Id != id
        {
          if i != k {
            assert s[i].Id != s[k].Id;
          }
        }
      }
    }
  }

  /** The spread in `update` does not protect `Id`: a patch carrying another
      record's `Id` leaves two records with the same `Id`. */
  lemma UpdateCanDuplicateIds()
    ensures var s := [Task(1, "a", "", "Work", "Low", 0, false, false, 0),
                      Task(2, "b", "", "Work", "Low", 0, false, false, 0)];
      var r := Update(s, 2, EmptyPatch.(Id := Some(1)));
      r.Success? && !UniqueIds(r.value.store)
  {
    var s := [Task(1, "a", "", "Work", "Low", 0, false, false, 0),
              Task(2, "b", "", "Work", "Low", 0, false, false, 0)];
    var r := Update(s, 2, EmptyPatch.(Id := Some(1)));
    assert Located(s, 2, 1);
    var k :| Located(s, 2, k) && r.value.task == Merge(s[k], EmptyPatch.(Id := Some(1)))
      && r.value.store == s[k := r.value.task];
    Records.FirstAtUnique(s, TaskId, 2, 1, k);
    assert r.value.store[0].Id == r.value.store[1].Id;
  }

  /** `Id`s can be reused: once the record with the largest `Id` is deleted,
      wherever it sits in the store, the next record created gets an `Id`
      no larger than the deleted one, and exactly the same `Id` when the
      runner-up `Id` was one below it. */
  lemma DeletedMaxIdIsReused(s: seq<Task>, input: TaskInput, now: int, k: nat, j: nat)
    requires k < |s| && UniqueIds(s)
    requires forall i :: 0 <= i < |s| ==> s[i].Id <= s[k].Id
    requires s[k].Id >= 1
    ensures Delete(s, s[k].Id).Success?
    ensures Create(Delete(s, s[k].Id).value.store, input, now).task.Id <= s[k].Id
    ensures j < |s| && j != k && s[j].Id == s[k].Id - 1 ==>
      Create(Delete(s, s[k].Id).value.store, input, now).task.Id == s[k].Id
  {
    var id := s[k].Id;
    Records.UniqueFirstAt(s, TaskId, id, k);
    var r := Delete(s, id);
    var k' :| Located(s, id, k') && r.value.task == s[k'] && r.value.store == s[..k'] + s[k' + 1..];
    Records.FirstAtUnique(s, TaskId, id, k, k');
    var rest := r.value.store;
    assert forall i :: 0 <= i < |rest| ==> rest[i] == if i < k then s[i] else s[i + 1];
    var c := Create(rest, input, now);
    if c.task.Id != 1 {
      var i :| 0 <= i < |rest| && rest[i].Id == c.task.Id - 1;
      if i < k {
        assert s[i].Id != s[k].Id;
      } else {
        assert s[i + 1].Id != s[k].Id;
      }
    }
    if j < |s| && j != k && s[j].Id == id - 1 {
      assert rest[if j < k then j else j - 1].Id == id - 1;
    }
  }

  // ---------------------------------------------------------------------
  // The store as a state machine

  datatype Op =
    | CreateOp(input: TaskInput)
    | UpdateOp(id: int, patch: TaskPatch)
    | DeleteOp(id: int)
    | ToggleOp(id: int)
    | ArchiveOp(id: int)
    | RestoreOp(id: int)

  /** The operation neither creates nor may introduce a duplicate `Id`. */
  predicate KeepsIds(op: Op) {
    op.UpdateOp? ==> op.patch.Id.None? || op.patch.Id == Some(op.id)
  }

  /** One mutation of the store. Only the `Id`-addressed operations can
      fail, and only when the `Id` is absent; every operation that does not
      rewrite an `Id` keeps `Id`s unique. */
  function Apply(s: seq<Task>, op: Op, now: int): (r: Result<Applied, Error>)
    ensures r.Failure? <==> !op.CreateOp? && !HasId(s, op.id)
    ensures r.Failure? ==> r.error == TaskNotFound
    ensures r.Success? && UniqueIds(s) && KeepsIds(op) ==> UniqueIds(r.value.store)
  {
    match op
    case CreateOp(input) => Success(Create(s, input, now))
    case UpdateOp(id, patch) => Update(s, id, patch)
    case DeleteOp(id) => Delete(s, id)
    case ToggleOp(id) => ToggleComplete(s, id)
    case ArchiveOp(id) => ArchiveTask(s, id)
    case RestoreOp(id) => RestoreTask(s, id)
  }
}

=== FILE: text.dfy ===
/** The three string operations the list and the form rely on:
    `toLowerCase` (over ASCII letters), `includes` and `trim`. */
module Text {

  predicate IsAsciiUpper(c: char) {
    'A' <= c <= 'Z'
  }

  /** The lower-case form of one character; only `A`..`Z` change. */
  function LowerChar(c: char): (d: char)
    ensures !IsAsciiUpper(d)
    ensures IsAsciiUpper(c) ==> d as int == c as int + 32
    ensures !IsAsciiUpper(c) ==> d == c
  {
    if IsAsciiUpper(c) then (c as int + 32) as char else c
  }

  /** `s.toLowerCase()` restricted to ASCII letters. */
  function Lower(s: string): (r: string)
    ensures |r| == |s|
    ensures forall i :: 0 <= i < |s| ==> r[i] == LowerChar(s[i])
  {
    seq(|s|, i requires 0 <= i < |s| => LowerChar(s[i]))
  }

  /** Two characters are the same letter in possibly different ASCII case. */
  predicate SameLetterIgnoringCase(a: char, b: char) {
    a == b
    || (IsAsciiUpper(a) && b as int == a as int + 32)
    || (IsAsciiUpper(b) && a as int == b as int + 32)
  }

  /** `a` and `b` differ at most in the ASCII case of their letters. */
  predicate EqualIgnoringCase(a: string, b: string) {
    |a| == |b| && forall i :: 0 <= i < |a| ==> SameLetterIgnoringCase(a[i], b[i])
  }

  /** Strings that differ only in case lower-case to the same string. */
  lemma EqualIgnoringCaseLower(a: string, b: string)
    requires EqualIgnoringCase(a, b)
    ensures Lower(a) == Lower(b)
  {
    assert forall i :: 0 <= i < |a| ==> Lower(a)[i] == Lower(b)[i];
  }

  /** `needle` occurs in `hay` starting at position `i`. */
  predicate OccursAt(hay: string, needle: string, i: int) {
    0 <= i && i + |needle| <= |hay| && hay[i..i + |needle|] == needle
  }

  /** `hay.includes(needle)`: `needle` occurs somewhere in `hay`. */
  function Contains(hay: string, needle: string): (r: bool)
    ensures needle == [] ==> r
    ensures r ==> |needle| <= |hay|
    decreases |hay|
  {
    if needle <= hay then true
    else if |hay| == 0 then false
    else Contains(hay[1..], needle)
  }

  /** `Contains` finds exactly the occurrences. */
  lemma {:induction false} ContainsIff(hay: string, needle: string)
    ensures Contains(hay, needle) <==> exists i :: OccursAt(hay, needle, i)
    decreases |hay|
  {
    if needle <= hay {
      assert OccursAt(hay, needle, 0);
    } else if |hay| > 0 {
      ContainsIff(hay[1..], needle);
      forall i | OccursAt(hay[1..], needle, i)
        ensures OccursAt(hay, needle, i + 1)
      {
        assert hay[1..][i..i + |needle|] == hay[i + 1..i + 1 + |needle|];
      }
      forall i | OccursAt(hay, needle, i)
        ensures OccursAt(hay[1..], needle, i - 1)
      {
        assert hay[1..][i - 1..i - 1 + |needle|] == hay[i..i + |needle|];
      }
    }
  }

  /** The characters `String.prototype.trim` removes: the ECMAScript
      WhiteSpace and LineTerminator code points. */
  predicate IsWhitespace(c: char) {
    c in {'\t', '\n', '\U{000B}', '\U{000C}', '\r', ' ', '\U{00A0}', '\U{1680}',
          '\U{2000}', '\U{2001}', '\U{2002}', '\U{2003}', '\U{2004}', '\U{2005}',
          '\U{2006}', '\U{2007}', '\U{2008}', '\U{2009}', '\U{200A}',
          '\U{2028}', '\U{2029}', '\U{202F}', '\U{205F}', '\U{3000}', '\U{FEFF}'}
  }

  predicate AllWhitespace(s: string) {
    forall i :: 0 <= i < |s| ==> IsWhitespace(s[i])
  }

  /** Number of whitespace characters at the start of `s`. */
  function LeadingSpace(s: string): (n: nat)
    ensures n <= |s|
    ensures AllWhitespace(s[..n])
    ensures n < |s| ==> !IsWhitespace(s[n])
    decreases |s|
  {
    if |s| > 0 && IsWhitespace(s[0]) then
      var rest := LeadingSpace(s[1..]);
      assert s[..rest + 1] == [s[0]] + s[1..][..rest];
      rest + 1
    else 0
  }

  /** Number of whitespace characters at the end of `s`. */
  function TrailingSpace(s: string): (n: nat)
    ensures n <= |s|
    ensures AllWhitespace(s[|s| - n..])
    ensures n < |s| ==> !IsWhitespace(s[|s| - n - 1])
    decreases |s|
  {
    if |s| > 0 && IsWhitespace(s[|s| - 1]) then
      var init := s[..|s| - 1];
      var rest := TrailingSpace(init);
      assert s[|s| - (rest + 1)..] == init[|init| - rest..] + [s[|s| - 1]];
      rest + 1
    else 0
  }

  /** `s.trim()`: `s` without its leading and trailing whitespace. The
      result is a contiguous piece of `s`, flanked in `s` by whitespace
      only, that neither starts nor ends with whitespace; it is empty
      exactly when `s` is all whitespace. */
  function Trim(s: string): (r: string)
    ensures r == [] <==> AllWhitespace(s)
    ensures r != [] ==> !IsWhitespace(r[0]) && !IsWhitespace(r[|r| - 1])
    ensures exists i :: TrimmedAt(s, r, i)
  {
    var lead := LeadingSpace(s);
    if lead == |s| then
      assert s[..lead] == s;
      assert TrimmedAt(s, [], |s|);
      []
    else
      var trail := TrailingSpace(s);
      assert trail < |s| - lead;
      var r := s[lead..|s| - trail];
      assert !AllWhitespace(s) by {
        assert !IsWhitespace(s[lead]);
      }
      assert s[..lead] + r + s[|s| - trail..] == s;
      assert TrimmedAt(s, r, lead);
      r
  }

  /** `r` sits in `s` at position `i` with only whitespace around it. */
  predicate TrimmedAt(s: string, r: string, i: int) {
    && 0 <= i && i + |r| <= |s|
    && s[..i] + r + s[i + |r|..] == s
    && AllWhitespace(s[..i])
    && AllWhitespace(s[i + |r|..])
  }

  /** Trimming an already trimmed string changes nothing. */
  lemma TrimIdempotent(s: string)
    ensures Trim(Trim(s)) == Trim(s)
  {
    var r := Trim(s);
    if r != [] {
      assert LeadingSpace(r) == 0;
      assert TrailingSpace(r) == 0;
    }
  }
}

=== FILE: wrappers.dfy ===
/** Failure-carrying values shared by the services: `Option` for "maybe absent"
    (a JavaScript `undefined`) and `Result` for an operation that either returns
    a value or throws an error. */
module Wrappers {

  datatype Option<+T> = None | Some(value: T) {

    /** The value, or `default` when absent (JavaScript's `x || default`
        for a value whose only falsy form is absence). */
    function GetOr(default: T): T {
      match this
      case Some(v) => v
      case None => default
    }
  }

  /** Either the value an operation returns or the error it throws. */
  datatype Result<+R, +E> = Success(value: R) | Failure(error: E)
}
